=== FILE: README.md ===
# Operational intelligence agent: statement runner, agent gating, source collection, vector store

A Dafny model of the deterministic core of the operational-intelligence
agent. The language model, the ODBC driver, the filesystem, the clock and the
embedding function are parameters. Everything else is written out as pure
functions over immutable datatypes:

- `DbAgent` (`agents/db_agent.py`). The DB agent sends one prompt to the
  model and splits the reply with `strip().splitlines()`. It runs every line
  once, in order, against an open connection. Each line leaves exactly one
  record: its rows as column-keyed dicts, or the text of the error it raised.
  Nothing runs without a connection string, or when connecting fails. A
  second prompt carries the records, and that reply is the agent's result.
  The executor may change a session state `D` that later statements see.
- `Orchestrator` (`orchestrator.py`, `orchestrator`). It parses the
  decision text with a fixed fallback and gates the two agents on the
  decision's flags. It returns the five-entry result. It also computes the
  fence-stripped text, which it never uses.
- `ProjectSource` (`orchestrator.py`, `collect_project_source_code`). The
  collector filters files by extension and size and concatenates them under
  `# File:` headers. Its error handling is modelled exactly, including the
  header that is left behind when a file fails to decode.
- `VectorDb` (`vector_db_client.py`). Two parallel lists are kept by
  `add`. The search without `faiss` ranks the stored embeddings by score and
  keeps `top_k` of them with Python slice semantics. `get_relevant_context`
  joins the result.
- `Text` and `Wrappers` hold the parts of Python's `str` and slicing that the
  code relies on. `Text` covers `strip`, `splitlines`, `endswith`, `join` and
  text-mode newline translation. `Wrappers` holds `Option`, `Result` and the
  length of `a[:k]`.

`db_agent` makes one suggestion call, one pass over the reply's lines and one
analysis call.

Where the source raises instead of returning, the model returns a
`Result.Failure`. This covers `.get` on a decision that is not a JSON
object, and an `OSError` from `getsize` or `open` that the collector's
`except` clause does not name (for example a file that vanished).

## Model

| member | source | states |
|---|---|---|
| DbAgent.FirstOccurrences | agents/db_agent.py:49 | the keys of a built dict hold each name once and exactly the names of the input (their order is stated by DbAgent.FirstOccurrencesOrder) |
| DbAgent.FirstOccurrencesOrder | agents/db_agent.py:49 | the keys come in order of first occurrence even when names repeat: an earlier key occurs in the columns before any later key does |
| DbAgent.FirstOccurrencesDistinct | agents/db_agent.py:49 | for distinct names the key order is the input order |
| DbAgent.ZipRow | agents/db_agent.py:48-49 | the dict built from one row has as keys exactly the column names among the first min(#columns, #values) positions, each once, in order of first occurrence |
| DbAgent.ZipRowLastWins | agents/db_agent.py:49 | a repeated column name takes the value at its last zipped position |
| DbAgent.ZipRowDistinct | agents/db_agent.py:47-49 | with distinct column names and full rows, the dict has one entry per column holding that column's value, and its keys are in column order |
| DbAgent.ToRecord | agents/db_agent.py:45-54 | a record keeps its statement, is an error record exactly when the execution raised, and otherwise holds one dict per fetched row keyed by the column names |
| DbAgent.RecordRowValues | agents/db_agent.py:47-49 | dict k of a record comes from fetched row k: its keys are in first-occurrence order and a column not repeated later holds row k's value at its position |
| DbAgent.RunStatements | agents/db_agent.py:44-54 | one record per statement, in statement order, each carrying its own statement |
| DbAgent.RunStatementsAppend | agents/db_agent.py:44-54 | running a then b gives a's records followed by exactly b's records from the state a leaves: a failure never drops or alters later records |
| DbAgent.RecordOfStatement | agents/db_agent.py:45-54 | record i is the outcome of statement i run in the state left by the statements before it |
| DbAgent.StatelessRecords | agents/db_agent.py:45-54 | against a session whose answers ignore earlier statements, each record depends only on its own statement |
| DbAgent.ExecuteStatements | agents/db_agent.py:38-54 | the statement loop builds exactly the records of the fold |
| DbAgent.RunDbAgent | agents/db_agent.py:24-74 | two prompts with missing summaries read as empty; the result is the second reply unchanged; no records without a connection string or when connecting fails; otherwise the records of the stripped reply's lines |
| DbAgent.Statements | agents/db_agent.py:44 | the statements are the lines of the stripped reply; none holds a line boundary, and there are no more of them than characters in the reply |
| DbAgent.Results | agents/db_agent.py:38-54 | no records without a connection string or when connecting fails; over a connection, one record per statement of the reply carrying that statement |
| DbAgent.StatementsEmptyIff | agents/db_agent.py:44 | a reply yields no statement exactly when it is all whitespace |
| DbAgent.StatementsRebuildReply | agents/db_agent.py:44 | when a reply breaks lines only with newline, its statements joined by newline rebuild the stripped reply |
| DbAgent.BlankReplyRunsNothing | agents/db_agent.py:34-44 | an all-whitespace first reply runs no statement, even over a live connection |
| Text.Strip | agents/db_agent.py:44 | what strip() keeps neither starts nor ends with whitespace |
| Text.StripKeepsInfix | agents/db_agent.py:44 | strip() returns the infix with only whitespace before and after it |
| Text.StripUnique | agents/db_agent.py:44 | any infix with only whitespace around it and none at its own ends is the result of strip() |
| Text.StripEmptyIff | agents/db_agent.py:44 | strip() yields the empty string exactly for all-whitespace text |
| Text.StripIdempotent | agents/db_agent.py:44 | stripping twice is stripping once |
| Text.SplitLines | agents/db_agent.py:44 | splitlines() never yields more lines than the text has characters |
| Text.SplitLinesNoBreaks | agents/db_agent.py:44 | no line from splitlines() holds a line boundary |
| Text.SplitLinesEmptyIff | agents/db_agent.py:44 | splitlines() yields no line exactly for the empty string |
| Text.JoinSplitLines | agents/db_agent.py:44 | newline-only text without a final newline is rebuilt by joining its lines with newline |
| Text.SplitLinesJoin | agents/db_agent.py:44 | break-free lines whose last one is not empty come back from splitlines() after a newline join |
| Text.JoinEnds | vector_db_client.py:63 | a join of at least one part begins with the first part and ends with the last |
| Text.TranslateNewlines | orchestrator.py:86-88 | the text-mode read leaves no carriage return and never lengthens the text |
| Text.TranslateNewlinesKeepsLines | orchestrator.py:86-88 | the text-mode read keeps the lines splitlines() finds: only the line boundaries change |
| Text.TranslateNewlinesIdentity | orchestrator.py:86-88 | text without carriage returns is read unchanged |
| Text.TranslateNewlinesIdempotent | orchestrator.py:86-88 | translating a second time changes nothing |
| ProjectSource.Collect | orchestrator.py:76-91 | an error escapes the collector only when it is not one the except clause names |
| ProjectSource.Contribution | orchestrator.py:80-90 | a file outside the filters contributes nothing; an error escapes exactly when a file with a source extension fails getsize, or passes the size limit and fails open, with an error outside the except clause; a non-empty contribution comes from a file within the size limit and begins with its header |
| ProjectSource.Candidates | orchestrator.py:80-85 | the filtered walk holds only files with a source extension and no known size over the limit |
| ProjectSource.CollectAppend | orchestrator.py:76-91 | the collected text of a walk is that of its first part followed by that of the rest, and the first escaping error wins |
| ProjectSource.CollectOnlyCandidates | orchestrator.py:80-85 | dropping every file without a source extension or over the size limit leaves the result unchanged |
| ProjectSource.CollectFailsIff | orchestrator.py:83-90 | the collector raises exactly when some file raises an error outside the except clause |
| ProjectSource.ReadableFileSection | orchestrator.py:86-88 | a decoded file within the limit contributes its header, its newline-translated text and a final newline |
| ProjectSource.UnreadableFileSection | orchestrator.py:86-90 | a file that fails to decode leaves its header only; one that cannot be opened with a caught error leaves nothing |
| ProjectSource.DefaultLimitBoundary | orchestrator.py:76-85 | with the default limit a file of 204800 bytes is kept and one of 204801 bytes contributes nothing |
| Orchestrator.Truthy | orchestrator.py:44-52 | a flag is truthy exactly when it is present and not null, false, 0, an empty string, an empty list or an empty object |
| Orchestrator.CleanDecisionText | orchestrator.py:30 | the cleaned text is no longer than the input and neither starts nor ends with whitespace |
| Orchestrator.ParseDecision | orchestrator.py:34-37 | parsed JSON is used as is; unparsable text gives a decision object with both flags false |
| Orchestrator.Orchestrate | orchestrator.py:24-74 | the result carries the log summary, the parsed decision and the timestamped report path; code_analysis is always None; the DB result is present exactly when run_db_agent is truthy; among the failures this model keeps, the run fails exactly when the decision is not an object or the source scan raises |
| Orchestrator.UnparsableDecisionRunsNoAgent | orchestrator.py:34-58 | unparsable decision text gives the default decision, no DB result and the timestamped report path |
| Orchestrator.DbAgentGetsEmptyCodeAnalysis | orchestrator.py:52-58 | the DB agent gets the log summary, an empty code analysis and the fixed connection string, and its analysis is stored unchanged |
| Orchestrator.FencedDecisionFallsBack | orchestrator.py:30-37 | because the raw text is parsed, a fenced JSON decision falls back to the default and the DB agent does not run |
| Orchestrator.RemoveFences | orchestrator.py:30 | fence removal never lengthens the text |
| Orchestrator.RemoveFencesPlain | orchestrator.py:30 | text without backticks passes fence removal untouched |
| Orchestrator.CleaningRecoversFencedBody | orchestrator.py:30 | the unused cleaned text would have been the stripped body of a json fence |
| VectorDb.Empty | vector_db_client.py:24-26 | a new store is empty with parallel lists |
| VectorDb.Add | vector_db_client.py:28-30 | add appends the text and the embedding at the ends, keeps the lists parallel and leaves earlier entries unchanged |
| VectorDb.AddAllKeepsOrder | vector_db_client.py:28-30 | any sequence of adds keeps the lists parallel and appends the texts and embeddings in call order |
| VectorDb.Insert | vector_db_client.py:45 | inserting a position into a ranking keeps it ranked and adds exactly that position |
| VectorDb.Rank | vector_db_client.py:45 | ranking distinct positions orders them best first and keeps exactly the same positions |
| VectorDb.Ranking | vector_db_client.py:45 | the reversed argsort holds every position once, best score first |
| VectorDb.TopPositions | vector_db_client.py:45 | the chosen positions number len(ranking[:top_k]) under Python slice semantics and are in ranking order |
| VectorDb.Search | vector_db_client.py:32-46 | an empty store gives no result whatever top_k is; otherwise len(ranking[:top_k]) results under Python slice semantics, each a stored text |
| VectorDb.TopPositionsAreBest | vector_db_client.py:44-46 | the chosen positions are distinct, in non-increasing score order, and no left-out position scores above a chosen one |
| VectorDb.SearchTexts | vector_db_client.py:46 | result i is the text stored at chosen position i |
| VectorDb.SearchAllWhenTopKCoversStore | vector_db_client.py:45-46 | a top_k of at least n returns every stored position exactly once |
| VectorDb.RelevantContext | vector_db_client.py:61-63 | an empty store yields the empty context; otherwise, when the search finds anything, the context begins with the best result |
| VectorDb.DefaultContextLeadsWithBest | vector_db_client.py:32-63 | with the default top_k of 3 on a non-empty store, the search returns min(3, n) texts and the context begins with a text of the highest score |
| VectorDb.SingleContextIsBest | vector_db_client.py:61-63 | with top_k = 1 on a non-empty store the context is a stored text with the highest score |
| Wrappers.SliceLength | vector_db_client.py:45 | a[:k] never has more elements than a |

## Left out

- The `log()` appends to the log file and every `print` in `agents/db_agent.py` and `orchestrator.py` are left out, and so are the failures of `log` itself. One record per statement assumes that `log` never raises. A `log` raising at `agents/db_agent.py:51`, after the append, would add a second, error record for the same statement. One raising inside the `except` at line 54 would escape to the outer `except` at line 57 and skip the remaining statements.
- Failures this model does not keep: `generate_pdf_report` raising (for example a missing output directory, `orchestrator.py:65`), `import pyodbc` failing (`agents/db_agent.py:17`), and the first `log` raising (`agents/db_agent.py:35`). `Orchestrator.Orchestrate` fails exactly on the failures it keeps, not on these.
- The `cursor.close()` and `conn.close()` calls are left out, and so are their failures. The model treats a connection as either opened (`connect` gives `Some`) or failed.
- `DbAgent.RunDbAgent`: `show` stands for Python's rendering of the results list inside the second prompt, which is not written out. It sees each row dict's keys in their order, which `DbAgent.Dict` keeps.
- A statement that runs but whose `fetchall` or `description` raises is the same `Raised` outcome as an `execute` failure, as the source's single `except` treats it.
- A `config` key that is present with the value `None` is not modelled. `Config` has only missing or present string values.
- `generate_pdf_report` (reportlab rendering) is left out: the model keeps only the report path. The timestamp is a parameter, and so is every model call (`log_agent`, `decision_agent`, `chat_with_model`).
- The prompt texts of `agents/log_agent.py`, `agents/code_agent.py` and `agents/decision_agent.py`, plus `agents/jira_agent.py`, `main.py` and `llm_client.py`, are not part of this model. They have no logic beyond a template or an I/O call.
- `json.loads` is a parameter. JSON numbers are integers here, so floats, NaN and infinities are not modelled.
- `os.walk` is a parameter giving the files in walk order. Errors that the walk swallows, and its traversal order, are not modelled.
- The `faiss` search path is left out: its behaviour is inside a library.
- Scores are integers produced by a `score` parameter instead of float32 dot products.
- Ties in scores: `np.argsort` does not fix the order of equal scores. The model fixes it as a stable ascending sort, reversed, so among equal scores the higher position comes first.
- `embed_text` (both definitions) is a parameter.
- `add_context` is left out: it is `embed_text` followed by `add`, and `VectorDb.AddAllKeepsOrder` covers repeated adds.
- `top_k` defaults to `VectorDb.DefaultTopK` (3) in the source; the model takes it as an explicit argument, and `VectorDb.DefaultContextLeadsWithBest` states the default case. `top_k=None` and embeddings of unequal dimension (an error in `np.array`) are not modelled.
- `VectorDb.Search`: it requires the two lists to have equal length. Every store built by `Empty` and `Add` satisfies this, and the source never checks it.
- `VectorDb.RelevantContext`: its contract states the empty-store case and that the context begins with the best result, not the whole joined text. The rest of the content is covered by `Text.JoinEnds` and `VectorDb.SingleContextIsBest`.

=== FILE: db_agent.dfy ===
/** The DB agent of `agents/db_agent.py`: one model reply is split into
    statements, each statement is run once against an open connection, and
    every statement yields exactly one ordered record; a second model call turns
    the records into the returned analysis.

    The model, the ODBC driver and the log file are collaborators: the model is
    `chat`, connecting is `connect` (which yields an opaque session state `D` or
    fails), and running a statement is `exec`, which may change the session
    state seen by later statements. */
module DbAgent {
  import opened Wrappers
  import opened Text

  /** What `cursor.execute(sql)` followed by `fetchall()` and `description`
      produces: the column names and the fetched rows, or the text of the
      exception that was raised. */
  datatype ExecOutcome<V> =
    | Fetched(columns: seq<string>, rows: seq<seq<V>>)
    | Raised(message: string)

  /** A Python dict with string keys: the keys in insertion order, which
      is the order `str(...)` renders them in, and the value of each. */
  datatype Dict<V> = Dict(keys: seq<string>, values: map<string, V>)

  /** One entry of `results`: `{"query", "result"}` or `{"query", "error"}`. */
  datatype StepRecord<V> =
    | Succeeded(query: string, result: seq<Dict<V>>)
    | Failed(query: string, error: string)

  /** The keys of `config` the agent reads; `None` is a missing key. */
  datatype Config = Config(logSummary: Option<string>, codeAnalysis: Option<string>, dbConnStr: Option<string>)

  /** The prompts sent to the model in call order, the first reply, the
      records, and the returned analysis. */
  datatype AgentRun<V> = AgentRun(prompts: seq<string>, suggestions: string,
                                  results: seq<StepRecord<V>>, analysis: string)

  type Executor<!D, V> = (D, string) -> (D, ExecOutcome<V>)

  /** `config.get(key, "")`. */
  function GetOrEmpty(v: Option<string>): string {
    match v
    case Some(s) => s
    case None => ""
  }

  /** `if db_conn_str:`: a missing key and the empty string are both false. */
  predicate HasConnString(config: Config) {
    config.dbConnStr.Some? && config.dbConnStr.value != ""
  }

  // ------------------------------------------------------------- one row


  /** The distinct names of `s` in order of first occurrence: the key order
      of a dict filled from `s` left to right. */
  function FirstOccurrences(s: seq<string>): (r: seq<string>)
    ensures forall x :: x in r <==> x in s
    ensures forall i, j :: 0 <= i < j < |r| ==> r[i] != r[j]
    decreases |s|
  {
    if s == [] then []
    else
      var n := |s| - 1;
      var d := FirstOccurrences(s[..n]);
      assert s == s[..n] + [s[n]];
      if s[n] in d then d else d + [s[n]]
  }

  /** `r` lists names of `s` in the order of their first occurrence in `s`:
      each earlier name of `r` occurs in `s` before any later name does. */
  predicate InFirstOccurrenceOrder(s: seq<string>, r: seq<string>) {
    forall i, j :: 0 <= i < j < |r| ==> exists a :: 0 <= a < |s| && s[a] == r[i] && r[j] !in s[..a]
  }

  /** The keys come in order of first occurrence, repeated names included. */
  lemma {:induction false} FirstOccurrencesOrder(s: seq<string>)
    ensures InFirstOccurrenceOrder(s, FirstOccurrences(s))
    decreases |s|
  {
    if s != [] {
      var n := |s| - 1;
      var p := s[..n];
      var d := FirstOccurrences(p);
      FirstOccurrencesOrder(p);
      var r := FirstOccurrences(s);
      assert r == if s[n] in d then d else d + [s[n]];
      forall i, j | 0 <= i < j < |r|
        ensures exists a :: 0 <= a < |s| && s[a] == r[i] && r[j] !in s[..a]
      {
        assert r[i] == d[i];
        if j < |d| {
          assert r[j] == d[j];
          var a :| 0 <= a < |p| && p[a] == d[i] && d[j] !in p[..a];
          assert s[..a] == p[..a];
          assert s[a] == p[a];
        } else {
          assert r[j] == s[n] && s[n] !in p;
          assert d[i] in p;
          var a :| 0 <= a < |p| && p[a] == d[i];
          assert s[..a] == p[..a];
          assert s[a] == p[a];
        }
      }
    }
  }

  /** Names that are already distinct keep their order. */
  lemma {:induction false} FirstOccurrencesDistinct(s: seq<string>)
    requires forall i, j :: 0 <= i < j < |s| ==> s[i] != s[j]
    ensures FirstOccurrences(s) == s
    decreases |s|
  {
    if s != [] {
      var n := |s| - 1;
      FirstOccurrencesDistinct(s[..n]);
      assert s == s[..n] + [s[n]];
    }
  }

  /** The values of `dict(zip(col_names, row))`: pairs up to the shorter of
      the two sequences, a later pair overwriting an earlier one. */
  function ZipValues<V>(cols: seq<string>, row: seq<V>): (d: map<string, V>)
    ensures d.Keys == set i | 0 <= i < Min(|cols|, |row|) :: cols[i]
    decreases |cols|
  {
    if |cols| == 0 || |row| == 0 then map[]
    else
      var rest := ZipValues(cols[1..], row[1..]);
      assert forall i :: 0 <= i < Min(|cols|, |row|) - 1 ==> cols[1..][i] == cols[i + 1];
      if cols[0] in rest then rest else rest[cols[0] := row[0]]
  }

  /** `dict(zip(col_names, row))`: each zipped column name once, in order of
      first occurrence; see `ZipRowLastWins` for the value of a repeated one. */
  function ZipRow<V>(cols: seq<string>, row: seq<V>): (d: Dict<V>)
    ensures d.values.Keys == set i | 0 <= i < Min(|cols|, |row|) :: cols[i]
    ensures forall x :: x in d.keys <==> x in d.values
    ensures forall i, j :: 0 <= i < j < |d.keys| ==> d.keys[i] != d.keys[j]
    ensures InFirstOccurrenceOrder(cols[..Min(|cols|, |row|)], d.keys)
  {
    var n := Min(|cols|, |row|);
    FirstOccurrencesOrder(cols[..n]);
    assert forall x :: x in cols[..n] <==> exists i :: 0 <= i < n && cols[i] == x by {
      assert forall i :: 0 <= i < n ==> cols[..n][i] == cols[i];
    }
    Dict(FirstOccurrences(cols[..n]), ZipValues(cols, row))
  }

  /** A column keeps the value of its last occurrence among the zipped
      pairs, as a later key overwrites an earlier one in `dict(...)`. */
  lemma {:induction false} ZipRowLastWins<V>(cols: seq<string>, row: seq<V>, i: nat)
    requires i < |cols| && i < |row|
    requires cols[i] !in cols[i + 1..Min(|cols|, |row|)]
    ensures cols[i] in ZipRow(cols, row).values && ZipRow(cols, row).values[cols[i]] == row[i]
  {
    ZipValuesLastWins(cols, row, i);
  }

  lemma {:induction false} ZipValuesLastWins<V>(cols: seq<string>, row: seq<V>, i: nat)
    requires i < |cols| && i < |row|
    requires cols[i] !in cols[i + 1..Min(|cols|, |row|)]
    ensures cols[i] in ZipValues(cols, row) && ZipValues(cols, row)[cols[i]] == row[i]
    decreases i
  {
    var n := Min(|cols|, |row|);
    if i > 0 {
      assert cols[1..][i - 1] == cols[i];
      assert cols[1..][i - 1 + 1..Min(|cols| - 1, |row| - 1)] == cols[i + 1..n];
      ZipValuesLastWins(cols[1..], row[1..], i - 1);
    }
  }

  /** With distinct column names and full rows (what a cursor returns), every
      column maps to the value in its own position. */
  lemma {:induction false} ZipRowDistinct<V>(cols: seq<string>, row: seq<V>)
    requires |row| == |cols|
    requires forall i, j :: 0 <= i < j < |cols| ==> cols[i] != cols[j]
    ensures ZipRow(cols, row).keys == cols
    ensures |ZipRow(cols, row).values| == |cols|
    ensures forall i :: 0 <= i < |cols| ==> ZipRow(cols, row).values[cols[i]] == row[i]
  {
    var d := ZipRow(cols, row).values;
    assert cols[..|cols|] == cols;
    FirstOccurrencesDistinct(cols);
    forall i | 0 <= i < |cols|
      ensures cols[i] in d && d[cols[i]] == row[i]
    {
      assert cols[i] !in cols[i + 1..];
      ZipRowLastWins(cols, row, i);
    }
    DistinctCard(cols);
  }

  /** A sequence of distinct elements has as many distinct values as positions. */
  lemma {:induction false} DistinctCard<T>(s: seq<T>)
    requires forall i, j :: 0 <= i < j < |s| ==> s[i] != s[j]
    ensures |set i | 0 <= i < |s| :: s[i]| == |s|
  {
    if s != [] {
      var n := |s| - 1;
      DistinctCard(s[..n]);
      var front := set i | 0 <= i < n :: s[..n][i];
      assert front == set i | 0 <= i < n :: s[i];
      assert (set i | 0 <= i < |s| :: s[i]) == front + {s[n]};
      assert s[n] !in front;
    }
  }

  // ---------------------------------------------------------- statements

  /** `sql_suggestions.strip().splitlines()`. */
  function Statements(reply: string): (stmts: seq<string>)
    ensures |stmts| <= |reply|
    ensures forall k :: 0 <= k < |stmts| ==> NoLineBreak(stmts[k])
  {
    SplitLinesNoBreaks(Strip(reply));
    SplitLines(Strip(reply))
  }

  /** The record a statement leaves behind, one dict per fetched row. */
  function ToRecord<V>(stmt: string, o: ExecOutcome<V>): (r: StepRecord<V>)
    ensures r.query == stmt
    ensures r.Failed? <==> o.Raised?
    ensures o.Fetched? ==> |r.result| == |o.rows|
    ensures o.Fetched? ==> forall k :: 0 <= k < |r.result| ==>
              r.result[k].values.Keys == set j | 0 <= j < Min(|o.columns|, |o.rows[k]|) :: o.columns[j]
  {
    match o
    case Fetched(cols, rows) => Succeeded(stmt, seq(|rows|, i requires 0 <= i < |rows| => ZipRow(cols, rows[i])))
    case Raised(msg) => Failed(stmt, msg)
  }

  /** Dict `k` of a record comes from fetched row `k`: its keys are the zipped
      column names in order of first occurrence, and a column not repeated
      later among the zipped names holds that row's value at its position. */
  lemma {:induction false} RecordRowValues<V>(stmt: string, cols: seq<string>, rows: seq<seq<V>>, k: nat, i: nat)
    requires k < |rows| && i < |cols| && i < |rows[k]|
    requires cols[i] !in cols[i + 1..Min(|cols|, |rows[k]|)]
    ensures var d := ToRecord(stmt, Fetched(cols, rows)).result[k];
            && InFirstOccurrenceOrder(cols[..Min(|cols|, |rows[k]|)], d.keys)
            && cols[i] in d.values && d.values[cols[i]] == rows[k][i]
  {
    ZipRowLastWins(cols, rows[k], i);
  }

  /** The per-statement loop as a fold: every statement is executed in order
      and appends one record, whether it raised or not. */
  function RunStatements<D, V>(exec: Executor<D, V>, db: D, stmts: seq<string>): (records: seq<StepRecord<V>>)
    ensures |records| == |stmts|
    ensures forall i :: 0 <= i < |stmts| ==> records[i].query == stmts[i]
    decreases |stmts|
  {
    if stmts == [] then []
    else
      var next := exec(db, stmts[0]);
      [ToRecord(stmts[0], next.1)] + RunStatements(exec, next.0, stmts[1..])
  }

  /** The session state after running `stmts` in order. */
  function StateAfter<D, V>(exec: Executor<D, V>, db: D, stmts: seq<string>): D
    decreases |stmts|
  {
    if stmts == [] then db else StateAfter(exec, exec(db, stmts[0]).0, stmts[1..])
  }

  /** Running `a` then `b` records `a`'s records followed by exactly what `b`
      records from the state `a` left behind: an earlier failure never
      suppresses or alters the records of later statements beyond the
      session state it leaves. */
  lemma {:induction false} RunStatementsAppend<D, V>(exec: Executor<D, V>, db: D, a: seq<string>, b: seq<string>)
    ensures RunStatements(exec, db, a + b)
            == RunStatements(exec, db, a) + RunStatements(exec, StateAfter(exec, db, a), b)
    ensures StateAfter(exec, db, a + b) == StateAfter(exec, StateAfter(exec, db, a), b)
    decreases |a|
  {
    if a != [] {
      assert (a + b)[0] == a[0];
      assert (a + b)[1..] == a[1..] + b;
      RunStatementsAppend(exec, exec(db, a[0]).0, a[1..], b);
    } else {
      assert a + b == b;
    }
  }

  /** Record `i` is the outcome of statement `i` run in the state the first
      `i` statements left: an error record exactly when that execution raised,
      otherwise one dict per fetched row. */
  lemma {:induction false} RecordOfStatement<D, V>(exec: Executor<D, V>, db: D, stmts: seq<string>, i: nat)
    requires i < |stmts|
    ensures RunStatements(exec, db, stmts)[i]
            == ToRecord(stmts[i], exec(StateAfter(exec, db, stmts[..i]), stmts[i]).1)
  {
    assert stmts == stmts[..i] + stmts[i..];
    RunStatementsAppend(exec, db, stmts[..i], stmts[i..]);
  }

  /** Against a session whose answers do not depend on earlier statements,
      each record depends on its own statement only. */
  lemma {:induction false} StatelessRecords<D, V>(exec: Executor<D, V>, db: D, stmts: seq<string>)
    requires forall d: D, s: string :: exec(d, s).1 == exec(db, s).1
    ensures forall i :: 0 <= i < |stmts| ==>
              RunStatements(exec, db, stmts)[i] == ToRecord(stmts[i], exec(db, stmts[i]).1)
  {
    forall i | 0 <= i < |stmts|
      ensures RunStatements(exec, db, stmts)[i] == ToRecord(stmts[i], exec(db, stmts[i]).1)
    {
      var before := StateAfter(exec, db, stmts[..i]);
      RecordOfStatement(exec, db, stmts, i);
      assert exec(before, stmts[i]).1 == exec(db, stmts[i]).1;
    }
  }

  /** The `for sql in ...` loop of the agent, statement by statement. */
  method ExecuteStatements<D, V>(exec: Executor<D, V>, db0: D, stmts: seq<string>)
    returns (results: seq<StepRecord<V>>)
    ensures results == RunStatements(exec, db0, stmts)
    ensures |results| == |stmts|
  {
    results := [];
    var db := db0;
    var i := 0;
    while i < |stmts|
      invariant 0 <= i <= |stmts|
      invariant results == RunStatements(exec, db0, stmts[..i])
      invariant db == StateAfter(exec, db0, stmts[..i])
    {
      var next := exec(db, stmts[i]);
      RunStatementsAppend(exec, db0, stmts[..i], [stmts[i]]);
      assert stmts[..i + 1] == stmts[..i] + [stmts[i]];
      results := results + [ToRecord(stmts[i], next.1)];
      db := next.0;
      i := i + 1;
    }
    assert stmts[..i] == stmts;
  }

  // -------------------------------------------------------------- prompts

  /** The fixed instruction closing the first prompt. */
  const SuggestionRequest: string :=
    "Suggest SQL Server diagnostic queries to help identify root causes (e.g., timeouts, slow queries, connection issues). "
    + "Return only valid T-SQL statements, one per line, with no explanations."

  /** The fixed instruction closing the second prompt. */
  const AnalysisRequest: string :=
    "Explain likely root causes, recommend query/index/config optimizations, "
    + "and provide optimized SQL if needed. Respond for a human DBA."

  /** The first prompt, asking for one diagnostic statement per line. */
  function SuggestionPrompt(logSummary: string, codeAnalysis: string): string {
    "Given this log summary from a SQL Server app:\n" + logSummary + "\n"
    + "Code analysis:\n" + codeAnalysis + "\n"
    + SuggestionRequest
  }

  /** The second prompt, carrying the rendered records. */
  function AnalysisPrompt(logSummary: string, codeAnalysis: string, shownResults: string): string {
    "Log summary:\n" + logSummary + "\n\n"
    + "Code analysis:\n" + codeAnalysis + "\n\n"
    + "SQL query results:\n" + shownResults + "\n\n"
    + AnalysisRequest
  }

  // ---------------------------------------------------------------- agent

  /** The records of one run: none without a connection string or when
      connecting fails, otherwise one per statement of the reply. */
  function Results<D, V>(config: Config, suggestions: string,
                         connect: string -> Option<D>, exec: Executor<D, V>): (records: seq<StepRecord<V>>)
    ensures !HasConnString(config) ==> records == []
    ensures HasConnString(config) && connect(config.dbConnStr.value).None? ==> records == []
    ensures HasConnString(config) && connect(config.dbConnStr.value).Some? ==>
              && |records| == |Statements(suggestions)|
              && forall i :: 0 <= i < |records| ==> records[i].query == Statements(suggestions)[i]
  {
    if !HasConnString(config) then []
    else match connect(config.dbConnStr.value)
      case None => []
      case Some(db) => RunStatements(exec, db, Statements(suggestions))
  }

  /** `db_agent(config)`. `show` renders the records as Python would inside
      the second prompt. */
  function RunDbAgent<D, V>(config: Config, chat: string -> string, connect: string -> Option<D>,
                            exec: Executor<D, V>, show: seq<StepRecord<V>> -> string): (run: AgentRun<V>)
    ensures |run.prompts| == 2
    ensures run.prompts[0] == SuggestionPrompt(GetOrEmpty(config.logSummary), GetOrEmpty(config.codeAnalysis))
    ensures run.suggestions == chat(run.prompts[0])
    ensures run.prompts[1] == AnalysisPrompt(GetOrEmpty(config.logSummary), GetOrEmpty(config.codeAnalysis), show(run.results))
    ensures run.analysis == chat(run.prompts[1])
    ensures !HasConnString(config) ==> run.results == []
    ensures HasConnString(config) && connect(config.dbConnStr.value).None? ==> run.results == []
    ensures HasConnString(config) && connect(config.dbConnStr.value).Some? ==>
              run.results == RunStatements(exec, connect(config.dbConnStr.value).value, Statements(run.suggestions))
  {
    var logSummary := GetOrEmpty(config.logSummary);
    var codeAnalysis := GetOrEmpty(config.codeAnalysis);
    var prompt := SuggestionPrompt(logSummary, codeAnalysis);
    var suggestions := chat(prompt);
    var results := Results(config, suggestions, connect, exec);
    var prompt2 := AnalysisPrompt(logSummary, codeAnalysis, show(results));
    AgentRun([prompt, prompt2], suggestions, results, chat(prompt2))
  }

  /** A reply yields no statement exactly when it is all whitespace. */
  lemma {:induction false} StatementsEmptyIff(reply: string)
    ensures Statements(reply) == [] <==> AllSpace(reply)
  {
  }

  /** The statements are the lines of the stripped reply: when the reply
      breaks lines with `\n` only, joining them with `\n` rebuilds it. */
  lemma {:induction false} StatementsRebuildReply(reply: string)
    requires OnlyNewlineBreaks(reply)
    ensures Join("\n", Statements(reply)) == Strip(reply)
  {
    var s := Strip(reply);
    StripKeepsInfix(reply);
    var a := StripStart(reply);
    assert forall i :: 0 <= i < |s| ==> s[i] == reply[a + i];
    if s != [] {
      LineBreakIsSpace('\n');
    }
    JoinSplitLines(s);
  }

  /** An all-whitespace first reply runs no statement, even over a live
      connection. */
  lemma {:induction false} BlankReplyRunsNothing<D, V>(config: Config, chat: string -> string, connect: string -> Option<D>,
                                    exec: Executor<D, V>, show: seq<StepRecord<V>> -> string)
    requires AllSpace(chat(SuggestionPrompt(GetOrEmpty(config.logSummary), GetOrEmpty(config.codeAnalysis))))
    ensures RunDbAgent(config, chat, connect, exec, show).results == []
  {
  }
}

=== FILE: orchestrator.dfy ===
/** `orchestrator(user_input)` of `orchestrator.py`: summarise the log, parse
    the model's decision, run the agents the decision selects, and return the
    five-entry result.

    The log agent, the decision agent, the JSON parser, the project walk, the
    clock and the DB agent's collaborators are parameters; the PDF report is
    not modelled, only its path. */
module Orchestrator {
  import opened Wrappers
  import opened Text
  import opened DbAgent
  import opened ProjectSource

  /** A parsed JSON value; numbers are integers here (see README). */
  datatype Json =
    | JNull
    | JBool(b: bool)
    | JNumber(n: int)
    | JString(s: string)
    | JArray(items: seq<Json>)
    | JObject(fields: map<string, Json>)

  /** The collaborators of one orchestration. `parseJson` is `json.loads`,
      with `None` for a `JSONDecodeError`; `walk` yields the files under a
      directory; `timestamp` is the formatted clock reading. */
  datatype Collaborators<!D, !V> = Collaborators(
    summarize: string -> string,
    decide: string -> string,
    parseJson: string -> Option<Json>,
    walk: string -> seq<FileEntry>,
    chat: string -> string,
    connect: string -> Option<D>,
    exec: Executor<D, V>,
    show: seq<StepRecord<V>> -> string,
    timestamp: string)

  /** The returned dict: `log_summary`, `decision`, `code_analysis`,
      `db_result` and `report_path`, with `None` as Python's `None`. */
  datatype Report = Report(logSummary: string, decision: Json, codeAnalysis: Option<string>,
                           dbResult: Option<string>, reportPath: string)

  /** The exceptions this model keeps among those that escape
      `orchestrator`: `.get` on a decision that is not a dict, and an
      `OSError` from the project walk that the collector does not catch. */
  datatype Crash = DecisionNotAnObject | SourceScanFailed(error: OsError)

  const ProjectPath: string := "c:/Hack"

  const DbConnString: string :=
    "DRIVER={ODBC Driver 17 for SQL Server};SERVER=localhost;DATABASE=Test;UID=sa;PWD=titan#12"

  /** The decision used when the model's text is not valid JSON. */
  const DefaultDecision: Json :=
    JObject(map["run_code_agent" := JBool(false), "run_db_agent" := JBool(false),
                "reason" := JString("Failed to parse decision")])

  /** Python truth value of `decision.get(key)`: a missing key is `None`. */
  function Truthy(v: Option<Json>): (b: bool)
    ensures b <==> v.Some? && v.value !in Falsy
  {
    match v
    case None => false
    case Some(j) =>
      match j
      case JNull => false
      case JBool(b) => b
      case JNumber(n) => n != 0
      case JString(s) => s != ""
      case JArray(items) => |items| > 0
      case JObject(fields) => |fields| > 0
  }

  /** The JSON values Python treats as false. */
  const Falsy: set<Json> := {JNull, JBool(false), JNumber(0), JString(""), JArray([]), JObject(map[])}

  /** `decision.get(key)` on a parsed object. */
  function Get(decision: Json, key: string): Option<Json>
    requires decision.JObject?
  {
    if key in decision.fields then Some(decision.fields[key]) else None
  }

  /** `s` starts with three backticks. */
  predicate AtFence(s: string) {
    |s| >= 3 && s[0] == '`' && s[1] == '`' && s[2] == '`'
  }

  /** `s` starts with three backticks followed by `json`. */
  predicate AtJsonFence(s: string) {
    AtFence(s) && |s| >= 7 && s[3] == 'j' && s[4] == 's' && s[5] == 'o' && s[6] == 'n'
  }

  /** The fence removal `re.sub(r"```(?:json)?|```", "", text)`: scanning left
      to right, each "```json" or else "```" is deleted. */
  function RemoveFences(s: string): (r: string)
    ensures |r| <= |s|
  {
    if AtJsonFence(s) then RemoveFences(s[7..])
    else if AtFence(s) then RemoveFences(s[3..])
    else if s == [] then []
    else [s[0]] + RemoveFences(s[1..])
  }

  /** `decision_text_clean`: computed by the orchestrator and never used. */
  function CleanDecisionText(text: string): (r: string)
    ensures |r| <= |text|
    ensures r == [] || (!IsSpace(r[0]) && !IsSpace(r[|r| - 1]))
  {
    Strip(RemoveFences(text))
  }

  /** The `try: json.loads(decision_text)` step: the raw text is parsed, and
      a parse failure gives the fixed default. */
  function ParseDecision(parseJson: string -> Option<Json>, text: string): (d: Json)
    ensures parseJson(text).Some? ==> d == parseJson(text).value
    ensures parseJson(text).None? ==> d.JObject? && !Truthy(Get(d, "run_code_agent")) && !Truthy(Get(d, "run_db_agent"))
  {
    match parseJson(text)
    case Some(j) => j
    case None => DefaultDecision
  }

  function ReportPath(timestamp: string): string {
    "output\\analysis_report_" + timestamp + ".pdf"
  }

  /** The configuration the orchestrator hands to the DB agent. */
  function DbAgentConfig(logSummary: string, codeAnalysis: Option<string>): Config {
    Config(Some(logSummary), Some(GetOrEmpty(codeAnalysis)), Some(DbConnString))
  }

  /** `orchestrator(user_input)`. */
  function Orchestrate<D, V>(input: string, env: Collaborators<D, V>): (r: Result<Report, Crash>)
    ensures r.Success? ==> r.value.logSummary == env.summarize(input)
    ensures r.Success? ==> r.value.decision == ParseDecision(env.parseJson, env.decide(env.summarize(input)))
    ensures r.Success? ==> r.value.reportPath == ReportPath(env.timestamp)
    ensures r.Success? ==> r.value.codeAnalysis == None
    ensures r.Success? ==> r.value.decision.JObject?
    ensures r.Success? ==> (r.value.dbResult.Some? <==> Truthy(Get(r.value.decision, "run_db_agent")))
    ensures r.Failure? <==>
              || !ParseDecision(env.parseJson, env.decide(env.summarize(input))).JObject?
              || (Truthy(Get(ParseDecision(env.parseJson, env.decide(env.summarize(input))), "run_code_agent"))
                  && Collect(env.walk(ProjectPath), DefaultMaxSizeKb).Failure?)
  {
    var logSummary := env.summarize(input);
    var decisionText := env.decide(logSummary);
    var decisionTextClean := CleanDecisionText(decisionText);
    var decision := ParseDecision(env.parseJson, decisionText);
    if !decision.JObject? then Failure(DecisionNotAnObject)
    else
      var codeAnalysis: Option<string> := None;
      var scan :=
        if Truthy(Get(decision, "run_code_agent")) then Collect(env.walk(ProjectPath), DefaultMaxSizeKb)
        else Success("");
      if scan.Failure? then Failure(SourceScanFailed(scan.error))
      else
        var dbResult :=
          if Truthy(Get(decision, "run_db_agent")) then
            Some(RunDbAgent(DbAgentConfig(logSummary, codeAnalysis), env.chat, env.connect, env.exec, env.show).analysis)
          else None;
        Success(Report(logSummary, decision, codeAnalysis, dbResult, ReportPath(env.timestamp)))
  }

  /** When the decision text is not valid JSON, neither agent runs, the
      project is not walked, and the report carries the default decision. */
  lemma {:induction false} UnparsableDecisionRunsNoAgent<D, V>(input: string, env: Collaborators<D, V>)
    requires env.parseJson(env.decide(env.summarize(input))).None?
    ensures Orchestrate(input, env)
            == Success(Report(env.summarize(input), DefaultDecision, None, None, ReportPath(env.timestamp)))
  {
  }

  /** Whatever the decision, the DB agent is handed the log summary, an empty
      code analysis (the code agent never produces one) and the fixed
      connection string, and its analysis is stored unchanged. */
  lemma {:induction false} DbAgentGetsEmptyCodeAnalysis<D, V>(input: string, env: Collaborators<D, V>)
    requires Orchestrate(input, env).Success?
    requires Orchestrate(input, env).value.dbResult.Some?
    ensures Orchestrate(input, env).value.dbResult.value
            == RunDbAgent(Config(Some(env.summarize(input)), Some(""), Some(DbConnString)),
                          env.chat, env.connect, env.exec, env.show).analysis
  {
  }

  /** JSON text (section 2 of RFC 8259) cannot begin with a backtick. */
  ghost predicate RejectsBacktick(parseJson: string -> Option<Json>) {
    forall s: string :: |s| > 0 && s[0] == '`' ==> parseJson(s).None?
  }

  /** Because the raw text is parsed, a decision wrapped in a Markdown code
      fence falls back to the default, whatever the fenced JSON says. */
  lemma {:induction false} FencedDecisionFallsBack<D, V>(input: string, env: Collaborators<D, V>, body: string)
    requires RejectsBacktick(env.parseJson)
    requires env.decide(env.summarize(input)) == "```json" + body + "```"
    ensures Orchestrate(input, env).Success?
    ensures Orchestrate(input, env).value.decision == DefaultDecision
    ensures Orchestrate(input, env).value.dbResult == None
  {
  }

  /** The unused cleaned text would have recovered a fenced body that holds
      no backtick. */
  lemma {:induction false} CleaningRecoversFencedBody(body: string)
    requires '`' !in body
    ensures CleanDecisionText("```json" + body + "```") == Strip(body)
  {
    var s := "```json" + body + "```";
    assert AtJsonFence(s);
    assert s[7..] == body + "```";
    RemoveFencesPlain(body, "```");
    assert RemoveFences("```") == [] by {
      assert AtFence("```");
      assert "```"[3..] == [];
    }
    assert body + [] == body;
  }

  /** Text without backticks passes the fence removal untouched. */
  lemma {:induction false} RemoveFencesPlain(p: string, t: string)
    requires '`' !in p
    ensures RemoveFences(p + t) == p + RemoveFences(t)
    decreases |p|
  {
    if p == [] {
      assert p + t == t;
    } else {
      var s := p + t;
      assert s[0] == p[0] && p[0] != '`';
      assert s[1..] == p[1..] + t;
      assert '`' !in p[1..] by {
        assert forall c :: c in p[1..] ==> c in p;
      }
      RemoveFencesPlain(p[1..], t);
    }
  }
}

=== FILE: project_source.dfy ===
/** `collect_project_source_code` of `orchestrator.py`: the files of a project
    tree, in walk order, are filtered by extension and size and concatenated,
    each under a `# File:` header.

    The directory walk, `getsize` and `open`/`read` are collaborators: the walk
    is the sequence of `FileEntry` values it yields, each carrying the outcome
    of `getsize` and of opening and reading the file. */
module ProjectSource {
  import opened Wrappers
  import opened Text

  /** The `OSError`s that `getsize` or `open` can raise; only the first two
      are among those the collector catches. */
  datatype OsError = PermissionDenied | IsADirectory | OtherOsError(name: string)

  /** What `open(path, "r", encoding="utf-8")` and `f.read()` produce: the
      decoded text (before newline translation), an error from `open`, or a
      `UnicodeDecodeError` from `read`. */
  datatype ReadOutcome = Decoded(text: string) | OpenFailed(error: OsError) | DecodeFailed

  /** One file yielded by the walk: its bare name, its joined path, the
      outcome of `getsize`, and the outcome of reading it. */
  datatype FileEntry = FileEntry(name: string, path: string, size: Result<nat, OsError>, read: ReadOutcome)

  /** The default `max_size_kb`. */
  const DefaultMaxSizeKb: int := 200

  /** The errors named in the collector's `except` clause (besides the
      decode error, which `ReadOutcome` carries separately). */
  predicate Caught(e: OsError) {
    e.PermissionDenied? || e.IsADirectory?
  }

  /** `file.endswith((".py", ".cs", ".js", ".ts"))`. */
  predicate HasSourceExtension(name: string) {
    EndsWith(name, ".py") || EndsWith(name, ".cs") || EndsWith(name, ".js") || EndsWith(name, ".ts")
  }

  /** The size limit in bytes: files strictly larger are skipped. */
  function SizeLimit(maxSizeKb: int): int {
    maxSizeKb * 1024
  }

  /** Not excluded by the two filters: a source extension, and no known size
      above the limit. A file whose size cannot be read is still a candidate. */
  predicate Candidate(f: FileEntry, maxSizeKb: int) {
    HasSourceExtension(f.name) && !(f.size.Success? && f.size.value > SizeLimit(maxSizeKb))
  }

  function Header(path: string): string {
    "\n# File: " + path + "\n"
  }

  /** What one file adds to the collected text, or the error that escapes the
      collector. The header is appended after `open` succeeds and before
      `read` runs, so a decode failure leaves the header without content. */
  function Contribution(f: FileEntry, maxSizeKb: int): (r: Result<string, OsError>)
    ensures !Candidate(f, maxSizeKb) ==> r == Success("")
    ensures r.Failure? ==> Candidate(f, maxSizeKb) && !Caught(r.error)
    ensures r.Failure? <==>
              && HasSourceExtension(f.name)
              && ((f.size.Failure? && !Caught(f.size.error))
                  || (f.size.Success? && f.size.value <= SizeLimit(maxSizeKb)
                      && f.read.OpenFailed? && !Caught(f.read.error)))
    ensures r.Success? && r.value != "" ==>
              && Candidate(f, maxSizeKb) && f.size.Success? && f.size.value <= SizeLimit(maxSizeKb)
              && |Header(f.path)| <= |r.value| && r.value[..|Header(f.path)|] == Header(f.path)
  {
    if !HasSourceExtension(f.name) then Success("")
    else match f.size
      case Failure(e) => if Caught(e) then Success("") else Failure(e)
      case Success(n) =>
        if n > SizeLimit(maxSizeKb) then Success("")
        else match f.read
          case OpenFailed(e) => if Caught(e) then Success("") else Failure(e)
          case DecodeFailed => Success(Header(f.path))
          case Decoded(t) => Success(Header(f.path) + TranslateNewlines(t) + "\n")
  }

  /** Propagation of the first escaping error across two stretches of the
      walk: the text of the first followed by that of the second. */
  function Then(a: Result<string, OsError>, b: Result<string, OsError>): (r: Result<string, OsError>)
    ensures r.Failure? <==> a.Failure? || b.Failure?
    ensures a.Failure? ==> r == a
  {
    match a
    case Failure(e) => Failure(e)
    case Success(x) =>
      match b
      case Failure(e) => Failure(e)
      case Success(y) => Success(x + y)
  }

  /** `collect_project_source_code(...)` over the walk `files`: the
      contributions in walk order, or the first error that escapes. */
  function Collect(files: seq<FileEntry>, maxSizeKb: int): (r: Result<string, OsError>)
    ensures r.Failure? ==> !Caught(r.error)
    decreases |files|
  {
    if files == [] then Success("")
    else Then(Contribution(files[0], maxSizeKb), Collect(files[1..], maxSizeKb))
  }

  /** Grouping does not matter when stretches are chained. */
  lemma {:induction false} ThenAssociative(a: Result<string, OsError>, b: Result<string, OsError>,
                                           c: Result<string, OsError>)
    ensures Then(Then(a, b), c) == Then(a, Then(b, c))
  {
    if a.Success? && b.Success? && c.Success? {
      assert (a.value + b.value) + c.value == a.value + (b.value + c.value);
    }
  }

  /** The walk with the files the two filters exclude removed. */
  function Candidates(files: seq<FileEntry>, maxSizeKb: int): (r: seq<FileEntry>)
    ensures |r| <= |files|
    ensures forall i :: 0 <= i < |r| ==> Candidate(r[i], maxSizeKb) && r[i] in files
    decreases |files|
  {
    if files == [] then []
    else if Candidate(files[0], maxSizeKb) then [files[0]] + Candidates(files[1..], maxSizeKb)
    else Candidates(files[1..], maxSizeKb)
  }

  /** The collected text of a walk is the text of its first part followed by
      that of the rest: files contribute in walk order. */
  lemma {:induction false} CollectAppend(a: seq<FileEntry>, b: seq<FileEntry>, maxSizeKb: int)
    ensures Collect(a + b, maxSizeKb) == Then(Collect(a, maxSizeKb), Collect(b, maxSizeKb))
    decreases |a|
  {
    if a == [] {
      assert a + b == b;
      if Collect(b, maxSizeKb).Success? {
        assert "" + Collect(b, maxSizeKb).value == Collect(b, maxSizeKb).value;
      }
    } else {
      assert (a + b)[0] == a[0];
      assert (a + b)[1..] == a[1..] + b;
      CollectAppend(a[1..], b, maxSizeKb);
      ThenAssociative(Contribution(a[0], maxSizeKb), Collect(a[1..], maxSizeKb), Collect(b, maxSizeKb));
    }
  }

  /** Only files with a source extension and within the size limit can
      affect the result: dropping every other file changes nothing. */
  lemma {:induction false} CollectOnlyCandidates(files: seq<FileEntry>, maxSizeKb: int)
    ensures Collect(files, maxSizeKb) == Collect(Candidates(files, maxSizeKb), maxSizeKb)
    decreases |files|
  {
    if files != [] {
      CollectOnlyCandidates(files[1..], maxSizeKb);
      if !Candidate(files[0], maxSizeKb) {
        match Collect(files[1..], maxSizeKb)
        case Success(y) => assert "" + y == y;
        case Failure(_) =>
      } else {
        var c := Candidates(files, maxSizeKb);
        assert c[0] == files[0];
        assert c[1..] == Candidates(files[1..], maxSizeKb);
      }
    }
  }

  /** The collector raises exactly when some file in the walk raises an
      error outside its `except` clause. */
  lemma {:induction false} CollectFailsIff(files: seq<FileEntry>, maxSizeKb: int)
    ensures Collect(files, maxSizeKb).Failure?
            <==> exists i :: 0 <= i < |files| && Contribution(files[i], maxSizeKb).Failure?
    decreases |files|
  {
    if files != [] {
      CollectFailsIff(files[1..], maxSizeKb);
      if exists i :: 0 <= i < |files| - 1 && Contribution(files[1..][i], maxSizeKb).Failure? {
        var i :| 0 <= i < |files| - 1 && Contribution(files[1..][i], maxSizeKb).Failure?;
        assert files[1..][i] == files[i + 1];
      }
      if exists i :: 0 <= i < |files| && Contribution(files[i], maxSizeKb).Failure? {
        var i :| 0 <= i < |files| && Contribution(files[i], maxSizeKb).Failure?;
        if i > 0 {
          assert files[1..][i - 1] == files[i];
        }
      }
    }
  }

  /** A fully read source file within the limit contributes its header,
      its text with newlines translated, and a final newline; a file of
      exactly the limit is included. */
  lemma {:induction false} ReadableFileSection(f: FileEntry, maxSizeKb: int, n: nat, t: string)
    requires HasSourceExtension(f.name)
    requires f.size == Success(n) && n <= SizeLimit(maxSizeKb)
    requires f.read == Decoded(t)
    ensures Contribution(f, maxSizeKb) == Success("\n# File: " + f.path + "\n" + TranslateNewlines(t) + "\n")
  {
  }

  /** A source file that opens but fails to decode leaves its header and
      nothing else; one that cannot be opened leaves nothing. */
  lemma {:induction false} UnreadableFileSection(f: FileEntry, maxSizeKb: int, n: nat)
    requires HasSourceExtension(f.name)
    requires f.size == Success(n) && n <= SizeLimit(maxSizeKb)
    ensures f.read == DecodeFailed ==> Contribution(f, maxSizeKb) == Success("\n# File: " + f.path + "\n")
    ensures f.read.OpenFailed? && Caught(f.read.error) ==> Contribution(f, maxSizeKb) == Success("")
  {
  }

  /** With the default limit, 204800 bytes is the largest size included. */
  lemma {:induction false} DefaultLimitBoundary(f: FileEntry)
    requires HasSourceExtension(f.name)
    ensures f.size == Success(204800) ==> Candidate(f, DefaultMaxSizeKb)
    ensures f.size == Success(204801) ==> Contribution(f, DefaultMaxSizeKb) == Success("")
  {
  }
}

=== FILE: text.dfy ===
/** The slice of Python's `str` behaviour the agents rely on: `strip()`,
    `splitlines()`, `endswith()`, `sep.join(...)`, and the newline translation
    that a text-mode `open(...).read()` applies. */
module Text {

  /** Characters for which Python's `str.isspace()` holds. */
  predicate IsSpace(c: char) {
    || ('\t' <= c <= '\r') || ('\U{1C}' <= c <= ' ')
    || c == '\U{85}' || c == '\U{A0}' || c == '\U{1680}'
    || ('\U{2000}' <= c <= '\U{200A}') || c == '\U{2028}' || c == '\U{2029}'
    || c == '\U{202F}' || c == '\U{205F}' || c == '\U{3000}'
  }

  /** Characters at which `str.splitlines()` ends a line. */
  predicate IsLineBreak(c: char) {
    || c == '\n' || c == '\r'
    || c == '\U{0B}' || c == '\U{0C}'
    || c == '\U{1C}' || c == '\U{1D}' || c == '\U{1E}'
    || c == '\U{85}' || c == '\U{2028}' || c == '\U{2029}'
  }

  predicate AllSpace(s: string) {
    forall i :: 0 <= i < |s| ==> IsSpace(s[i])
  }

  predicate NoLineBreak(s: string) {
    forall i :: 0 <= i < |s| ==> !IsLineBreak(s[i])
  }

  /** Every line boundary is whitespace, so `strip()` also removes leading and
      trailing line breaks. */
  lemma LineBreakIsSpace(c: char)
    requires IsLineBreak(c)
    ensures IsSpace(c)
  {
  }

  // ---------------------------------------------------------------- strip

  /** Index of the first non-whitespace character of `s` at or after `i`,
      or `|s|` when there is none. */
  function SkipSpace(s: string, i: nat): (k: nat)
    requires i <= |s|
    ensures i <= k <= |s|
    ensures forall m :: i <= m < k ==> IsSpace(s[m])
    ensures k < |s| ==> !IsSpace(s[k])
    decreases |s| - i
  {
    if i < |s| && IsSpace(s[i]) then SkipSpace(s, i + 1) else i
  }

  /** Index just past the last non-whitespace character of `s[lo..hi]`, or
      `lo` when there is none. */
  function SkipSpaceBack(s: string, lo: nat, hi: nat): (k: nat)
    requires lo <= hi <= |s|
    ensures lo <= k <= hi
    ensures forall m :: k <= m < hi ==> IsSpace(s[m])
    ensures k > lo ==> !IsSpace(s[k - 1])
    decreases hi
  {
    if hi > lo && IsSpace(s[hi - 1]) then SkipSpaceBack(s, lo, hi - 1) else hi
  }

  /** Where the text kept by `strip()` begins. */
  function StripStart(s: string): (i: nat)
    ensures i <= |s|
  {
    SkipSpace(s, 0)
  }

  /** Where the text kept by `strip()` ends. */
  function StripEnd(s: string): (j: nat)
    ensures StripStart(s) <= j <= |s|
  {
    SkipSpaceBack(s, StripStart(s), |s|)
  }

  /** `s.strip()`: the infix of `s` left after removing whitespace at both
      ends; what is kept neither starts nor ends with whitespace. */
  function Strip(s: string): (r: string)
    ensures |r| <= |s|
    ensures r == [] || (!IsSpace(r[0]) && !IsSpace(r[|r| - 1]))
  {
    s[StripStart(s)..StripEnd(s)]
  }

  /** `strip()` keeps exactly the infix between the leading and the trailing
      whitespace of `s`. */
  lemma {:induction false} StripKeepsInfix(s: string)
    ensures var i := StripStart(s);
            var j := i + |Strip(s)|;
            && j <= |s| && Strip(s) == s[i..j]
            && (forall k :: 0 <= k < i ==> IsSpace(s[k]))
            && (forall k :: j <= k < |s| ==> IsSpace(s[k]))
  {
  }

  /** Any infix with only whitespace around it, and no whitespace at its own
      ends, is what `strip()` returns: the two agree on every input. */
  lemma {:induction false} StripUnique(s: string, i: nat, j: nat)
    requires i <= j <= |s|
    requires forall k :: 0 <= k < i ==> IsSpace(s[k])
    requires forall k :: j <= k < |s| ==> IsSpace(s[k])
    requires i < j ==> !IsSpace(s[i]) && !IsSpace(s[j - 1])
    requires i == j ==> AllSpace(s)
    ensures Strip(s) == s[i..j]
  {
  }

  /** `strip()` yields the empty string exactly for all-whitespace input. */
  lemma {:induction false} StripEmptyIff(s: string)
    ensures Strip(s) == [] <==> AllSpace(s)
  {
  }

  /** A stripped string is left unchanged by a second `strip()`. */
  lemma {:induction false} StripIdempotent(s: string)
    ensures Strip(Strip(s)) == Strip(s)
  {
  }

  // ----------------------------------------------------------- splitlines

  /** Index of the first line break in `s`, or `|s|` when there is none. */
  function LineEnd(s: string): (j: nat)
    ensures j <= |s|
    ensures NoLineBreak(s[..j])
    ensures j < |s| ==> IsLineBreak(s[j])
  {
    if |s| == 0 || IsLineBreak(s[0]) then 0 else 1 + LineEnd(s[1..])
  }

  /** Width of the line boundary at `s[j]`: `\r\n` counts as one boundary. */
  function BreakWidth(s: string, j: nat): (w: nat)
    requires j < |s|
    ensures 1 <= w <= |s| - j
  {
    if s[j] == '\r' && j + 1 < |s| && s[j + 1] == '\n' then 2 else 1
  }

  /** `s.splitlines()`: the lines of `s` without their terminators; a final
      terminator does not start an extra empty line, and `""` has no lines. */
  function SplitLines(s: string): (lines: seq<string>)
    ensures |lines| <= |s|
    decreases |s|
  {
    if s == [] then []
    else
      var j := LineEnd(s);
      if j == |s| then [s]
      else [s[..j]] + SplitLines(s[j + BreakWidth(s, j)..])
  }

  /** No line of `s.splitlines()` holds a line boundary. */
  lemma {:induction false} SplitLinesNoBreaks(s: string)
    ensures forall k :: 0 <= k < |SplitLines(s)| ==> NoLineBreak(SplitLines(s)[k])
    decreases |s|
  {
    if s != [] {
      var j := LineEnd(s);
      if j < |s| {
        SplitLinesNoBreaks(s[j + BreakWidth(s, j)..]);
      }
    }
  }

  /** `sep.join(parts)`. */
  function Join(sep: string, parts: seq<string>): string
    decreases |parts|
  {
    if |parts| == 0 then ""
    else if |parts| == 1 then parts[0]
    else parts[0] + sep + Join(sep, parts[1..])
  }

  /** The join begins with the first part and ends with the last. */
  lemma {:induction false} JoinEnds(sep: string, parts: seq<string>)
    requires |parts| > 0
    ensures var r := Join(sep, parts);
            var last := parts[|parts| - 1];
            && |parts[0]| <= |r| && r[..|parts[0]|] == parts[0]
            && |last| <= |r| && r[|r| - |last|..] == last
    decreases |parts|
  {
    if |parts| > 1 {
      var rest := Join(sep, parts[1..]);
      JoinEnds(sep, parts[1..]);
      assert parts[1..][|parts| - 2] == parts[|parts| - 1];
      var r := parts[0] + sep + rest;
      assert r[..|parts[0]|] == parts[0];
      assert r[|r| - |rest|..] == rest;
    }
  }

  lemma {:induction false} SplitLinesEmptyIff(s: string)
    ensures SplitLines(s) == [] <==> s == []
  {
  }

  /** `\n` is the only line boundary that occurs in `s`. */
  predicate OnlyNewlineBreaks(s: string) {
    forall i :: 0 <= i < |s| && IsLineBreak(s[i]) ==> s[i] == '\n'
  }

  /** A text whose only line boundary is `\n`, and that does not end in one,
      is rebuilt by joining its lines with `\n`. */
  lemma {:induction false} JoinSplitLines(s: string)
    requires OnlyNewlineBreaks(s)
    requires s == [] || s[|s| - 1] != '\n'
    ensures Join("\n", SplitLines(s)) == s
    decreases |s|
  {
    if s != [] && LineEnd(s) < |s| {
      var j := LineEnd(s);
      SplitLinesAtNewline(s, j);
      JoinSplitLines(s[j + 1..]);
    }
  }

  /** A suffix has no line boundary other than `\n` when `s` has none. */
  lemma {:induction false} OnlyNewlineBreaksSuffix(s: string, k: nat)
    requires OnlyNewlineBreaks(s) && k <= |s|
    ensures OnlyNewlineBreaks(s[k..])
  {
  }

  /** One step of `JoinSplitLines`: a `\n` at the first boundary ends the
      first line, what follows it keeps the preconditions, and joining the
      lines of what follows with `\n` rebuilds `s` once they rebuild it. */
  lemma {:induction false} SplitLinesAtNewline(s: string, j: nat)
    requires OnlyNewlineBreaks(s)
    requires s != [] && s[|s| - 1] != '\n'
    requires j == LineEnd(s) && j < |s|
    ensures OnlyNewlineBreaks(s[j + 1..]) && s[j + 1..] != [] && s[j + 1..][|s| - j - 2] != '\n'
    ensures Join("\n", SplitLines(s[j + 1..])) == s[j + 1..] ==> Join("\n", SplitLines(s)) == s
  {
    assert s[j] == '\n';
    OnlyNewlineBreaksSuffix(s, j + 1);
    SplitAtNewline(s, j);
  }

  /** Splitting and joining at a `\n` that is the first boundary. */
  lemma {:induction false} SplitAtNewline(s: string, j: nat)
    requires j == LineEnd(s) && j + 1 < |s| && s[j] == '\n'
    ensures Join("\n", SplitLines(s[j + 1..])) == s[j + 1..] ==> Join("\n", SplitLines(s)) == s
  {
  }

  /** Joining break-free lines with `\n` and splitting again gives the lines
      back, provided the last line is not empty (a trailing empty line would
      leave only a final terminator, which `splitlines` drops). */
  lemma {:induction false} SplitLinesJoin(lines: seq<string>)
    requires |lines| > 0 && lines[|lines| - 1] != []
    requires forall k :: 0 <= k < |lines| ==> NoLineBreak(lines[k])
    ensures SplitLines(Join("\n", lines)) == lines
    decreases |lines|
  {
    var l := lines[0];
    if |lines| == 1 {
      assert LineEnd(l) == |l| by { LineEndOfPlain(l, ""); }
    } else {
      var rest := Join("\n", lines[1..]);
      var s := l + "\n" + rest;
      assert Join("\n", lines) == s;
      assert s == l + ("\n" + rest);
      LineEndOfPlain(l, "\n" + rest);
      assert BreakWidth(s, |l|) == 1;
      assert s[|l| + 1..] == rest;
      assert s[..|l|] == l;
      SplitLinesJoin(lines[1..]);
    }
  }

  /** The first line break of `l + t` is that of `t` when `l` has none. */
  lemma {:induction false} LineEndOfPlain(l: string, t: string)
    requires NoLineBreak(l)
    requires t == [] || IsLineBreak(t[0])
    ensures LineEnd(l + t) == |l|
    decreases |l|
  {
    if l != [] {
      assert (l + t)[1..] == l[1..] + t;
      LineEndOfPlain(l[1..], t);
    } else {
      assert l + t == t;
    }
  }

  // ------------------------------------------------------------- endswith

  predicate EndsWith(s: string, suffix: string) {
    |suffix| <= |s| && s[|s| - |suffix|..] == suffix
  }

  // ----------------------------------------------------- universal newlines

  /** The newline translation of a text-mode read (`newline=None`): `\r\n`
      and a lone `\r` both become `\n`. */
  function TranslateNewlines(s: string): (r: string)
    ensures '\r' !in r
    ensures |r| <= |s|
  {
    if s == [] then []
    else if s[0] == '\r' then
      if |s| > 1 && s[1] == '\n' then "\n" + TranslateNewlines(s[2..])
      else "\n" + TranslateNewlines(s[1..])
    else [s[0]] + TranslateNewlines(s[1..])
  }

  /** Text without carriage returns is not altered by the translation; in
      particular the translation is idempotent. */
  lemma {:induction false} TranslateNewlinesIdentity(s: string)
    requires '\r' !in s
    ensures TranslateNewlines(s) == s
  {
    if s != [] {
      assert '\r' !in s[1..] by {
        assert forall c :: c in s[1..] ==> c in s;
      }
      TranslateNewlinesIdentity(s[1..]);
    }
  }

  lemma {:induction false} TranslateNewlinesIdempotent(s: string)
    ensures TranslateNewlines(TranslateNewlines(s)) == TranslateNewlines(s)
  {
    TranslateNewlinesIdentity(TranslateNewlines(s));
  }

  /** The translation keeps the lines of `s`: each `\r\n`, lone `\r` or
      other boundary becomes exactly one boundary, so `splitlines()` sees the
      same lines before and after a text-mode read. */
  lemma {:induction false} TranslateNewlinesKeepsLines(s: string)
    ensures SplitLines(TranslateNewlines(s)) == SplitLines(s)
    decreases |s|
  {
    if s != [] {
      var j := LineEnd(s);
      if j == |s| {
        assert '\r' !in s by {
          assert s[..j] == s;
        }
        TranslateNewlinesIdentity(s);
      } else {
        var rest := s[j + BreakWidth(s, j)..];
        var t := TranslateNewlines(s);
        TranslateAtBreak(s, j);
        var c := if s[j] == '\r' then '\n' else s[j];
        assert t == s[..j] + ([c] + TranslateNewlines(rest));
        LineEndOfPlain(s[..j], [c] + TranslateNewlines(rest));
        assert BreakWidth(t, j) == 1 by {
          assert t[j] == c;
        }
        assert t[..j] == s[..j];
        assert t[j + 1..] == TranslateNewlines(rest);
        TranslateNewlinesKeepsLines(rest);
      }
    }
  }

  /** Around its first line boundary, the translation of `s` is the text
      before it unchanged, one boundary character, and the translation of
      what follows the boundary. */
  lemma {:induction false} TranslateAtBreak(s: string, j: nat)
    requires j == LineEnd(s) && j < |s|
    ensures TranslateNewlines(s)
            == s[..j] + ([if s[j] == '\r' then '\n' else s[j]] + TranslateNewlines(s[j + BreakWidth(s, j)..]))
  {
    var p := s[..j];
    var q := s[j..];
    assert '\r' !in p by {
      assert forall i :: 0 <= i < |p| ==> !IsLineBreak(p[i]);
    }
    assert s == p + q;
    TranslatePlainPrefix(p, q);
    assert q[0] == s[j];
    assert q[1..] == s[j + 1..];
    if s[j] == '\r' && j + 1 < |s| && s[j + 1] == '\n' {
      assert q[2..] == s[j + 2..];
    }
  }

  /** A prefix without carriage returns passes the translation unchanged. */
  lemma {:induction false} TranslatePlainPrefix(p: string, q: string)
    requires '\r' !in p
    ensures TranslateNewlines(p + q) == p + TranslateNewlines(q)
    decreases |p|
  {
    if p == [] {
      assert p + q == q;
    } else {
      assert (p + q)[0] == p[0];
      assert (p + q)[1..] == p[1..] + q;
      assert '\r' !in p[1..] by {
        assert forall c :: c in p[1..] ==> c in p;
      }
      TranslatePlainPrefix(p[1..], q);
    }
  }
}

=== FILE: vector_db.dfy ===
/** `SimpleVectorDB` of `vector_db_client.py` without `faiss`: two parallel
    lists of texts and embeddings, and a search that returns the texts of the
    `top_k` best-scoring embeddings, best first.

    Embeddings are an opaque type `E`; `score(stored, query)` stands for the
    dot product `emb_matrix @ query_emb.T` and is an integer here. */
module VectorDb {
  import opened Wrappers
  import opened Text

  datatype Store<E> = Store(texts: seq<string>, embeddings: seq<E>) {
    /** The lists stay parallel: entry `i` of each belongs to the same `add`. */
    predicate Valid() {
      |texts| == |embeddings|
    }
  }

  /** The default `top_k` of `search` and `get_relevant_context`. */
  const DefaultTopK: int := 3

  /** `SimpleVectorDB()`. */
  function Empty<E>(): (s: Store<E>)
    ensures s.Valid() && |s.texts| == 0
  {
    Store([], [])
  }

  /** `add(text, embedding)`: both lists grow by one entry at the end. */
  function Add<E>(s: Store<E>, text: string, embedding: E): (s': Store<E>)
    ensures |s'.texts| == |s.texts| + 1 && s'.texts[|s.texts|] == text
    ensures |s'.embeddings| == |s.embeddings| + 1 && s'.embeddings[|s.embeddings|] == embedding
    ensures s.Valid() ==> s'.Valid()
    ensures s'.texts[..|s.texts|] == s.texts && s'.embeddings[..|s.embeddings|] == s.embeddings
  {
    Store(s.texts + [text], s.embeddings + [embedding])
  }

  /** A store built by successive `add` calls on an empty store. */
  function AddAll<E>(s: Store<E>, items: seq<(string, E)>): Store<E>
    decreases |items|
  {
    if items == [] then s else AddAll(Add(s, items[0].0, items[0].1), items[1..])
  }

  /** Any sequence of `add` calls keeps the lists parallel and appends the
      texts in call order after the entries already stored. */
  lemma {:induction false} AddAllKeepsOrder<E>(s: Store<E>, items: seq<(string, E)>)
    requires s.Valid()
    ensures AddAll(s, items).Valid()
    ensures AddAll(s, items).texts == s.texts + seq(|items|, i requires 0 <= i < |items| => items[i].0)
    ensures AddAll(s, items).embeddings == s.embeddings + seq(|items|, i requires 0 <= i < |items| => items[i].1)
    decreases |items|
  {
    if items != [] {
      var s1 := Add(s, items[0].0, items[0].1);
      AddAllKeepsOrder(s1, items[1..]);
      var ts := seq(|items|, i requires 0 <= i < |items| => items[i].0);
      var ts1 := seq(|items| - 1, i requires 0 <= i < |items| - 1 => items[1..][i].0);
      assert ts == [items[0].0] + ts1;
      assert s.texts + ts == s1.texts + ts1;
      var es := seq(|items|, i requires 0 <= i < |items| => items[i].1);
      var es1 := seq(|items| - 1, i requires 0 <= i < |items| - 1 => items[1..][i].1);
      assert es == [items[0].1] + es1;
      assert s.embeddings + es == s1.embeddings + es1;
    }
  }

  // ------------------------------------------------------------- ranking

  /** Position `i` is ranked ahead of position `j` in
      `np.argsort(scores)[::-1]`: a higher score, or an equal score at a
      higher position (a stable ascending sort, reversed). */
  predicate Ahead(scores: seq<int>, i: nat, j: nat) {
    i < |scores| && j < |scores| && (scores[i] > scores[j] || (scores[i] == scores[j] && i > j))
  }

  predicate Ranked(scores: seq<int>, xs: seq<nat>) {
    forall a, b :: 0 <= a < b < |xs| ==> Ahead(scores, xs[a], xs[b])
  }

  predicate InRange(scores: seq<int>, xs: seq<nat>) {
    forall a :: 0 <= a < |xs| ==> xs[a] < |scores|
  }

  /** Two distinct positions of `scores` are always ordered one way or the
      other. */
  lemma {:induction false} AheadTotal(scores: seq<int>, i: nat, j: nat)
    requires i < |scores| && j < |scores| && i != j
    ensures Ahead(scores, i, j) != Ahead(scores, j, i)
  {
  }

  /** Insert position `x` into a ranked sequence. */
  function Insert(scores: seq<int>, x: nat, xs: seq<nat>): (r: seq<nat>)
    requires x < |scores| && InRange(scores, xs) && Ranked(scores, xs) && x !in xs
    ensures |r| == |xs| + 1
    ensures Ranked(scores, r) && InRange(scores, r)
    ensures forall y :: y in r <==> y == x || y in xs
    decreases |xs|
  {
    if xs == [] then [x]
    else if Ahead(scores, x, xs[0]) then
      assert forall b :: 0 < b < |[x] + xs| ==> ([x] + xs)[b] == xs[b - 1];
      [x] + xs
    else
      var rest := Insert(scores, x, xs[1..]);
      InsertBehindHead(scores, x, xs, rest);
      [xs[0]] + rest
  }

  /** When `x` is not ahead of the head of `xs`, the head is ahead of every
      position of the insertion of `x` into the tail. */
  lemma {:induction false} InsertBehindHead(scores: seq<int>, x: nat, xs: seq<nat>, rest: seq<nat>)
    requires x < |scores| && InRange(scores, xs) && Ranked(scores, xs) && x !in xs
    requires xs != [] && !Ahead(scores, x, xs[0])
    requires Ranked(scores, rest) && InRange(scores, rest)
    requires forall y :: y in rest <==> y == x || y in xs[1..]
    ensures Ranked(scores, [xs[0]] + rest) && InRange(scores, [xs[0]] + rest)
    ensures forall y :: y in [xs[0]] + rest <==> y == x || y in xs
  {
    var r := [xs[0]] + rest;
    AheadTotal(scores, x, xs[0]);
    forall b | 0 <= b < |rest|
      ensures Ahead(scores, xs[0], rest[b])
    {
      assert rest[b] in rest;
      if rest[b] != x {
        var k :| 0 <= k < |xs[1..]| && xs[1..][k] == rest[b];
        assert xs[k + 1] == rest[b];
      }
    }
    assert forall b :: 0 < b < |r| ==> r[b] == rest[b - 1];
    assert xs == [xs[0]] + xs[1..];
  }

  /** Insertion sort of distinct positions by rank. */
  function Rank(scores: seq<int>, xs: seq<nat>): (r: seq<nat>)
    requires InRange(scores, xs)
    requires forall a, b :: 0 <= a < b < |xs| ==> xs[a] != xs[b]
    ensures |r| == |xs|
    ensures Ranked(scores, r) && InRange(scores, r)
    ensures forall y :: y in r <==> y in xs
    decreases |xs|
  {
    if xs == [] then []
    else
      var tail := xs[1..];
      assert forall a :: 0 <= a < |tail| ==> tail[a] == xs[a + 1];
      var rest := Rank(scores, tail);
      assert xs[0] !in tail;
      assert xs == [xs[0]] + tail;
      Insert(scores, xs[0], rest)
  }

  /** A ranked sequence holds no position twice. */
  lemma {:induction false} RankedDistinct(scores: seq<int>, xs: seq<nat>)
    requires Ranked(scores, xs)
    ensures forall a, b :: 0 <= a < b < |xs| ==> xs[a] != xs[b]
  {
  }

  /** `[0, 1, ..., n-1]`. */
  function Positions(n: nat): (r: seq<nat>)
    ensures |r| == n && forall a :: 0 <= a < n ==> r[a] == a
  {
    seq(n, a requires 0 <= a < n => a)
  }

  /** `np.argsort(scores)[::-1]`: every position, best first. */
  function Ranking(scores: seq<int>): (r: seq<nat>)
    ensures |r| == |scores|
    ensures Ranked(scores, r) && InRange(scores, r)
    ensures forall p: nat :: p in r <==> p < |scores|
  {
    var all := Positions(|scores|);
    var r := Rank(scores, all);
    forall p: nat | p < |scores|
      ensures p in r
    {
      assert all[p] == p;
    }
    r
  }

  /** The scores of the stored embeddings against a query. */
  function Scores<E>(s: Store<E>, query: E, score: (E, E) -> int): (r: seq<int>)
    ensures |r| == |s.embeddings|
  {
    seq(|s.embeddings|, i requires 0 <= i < |s.embeddings| => score(s.embeddings[i], query))
  }

  /** The positions the fallback search picks: the ranking cut at `top_k`
      with Python slice semantics. */
  function TopPositions<E>(s: Store<E>, query: E, score: (E, E) -> int, topK: int): (r: seq<nat>)
    ensures |r| == SliceLength(topK, |s.embeddings|)
    ensures Ranked(Scores(s, query, score), r) && InRange(Scores(s, query, score), r)
  {
    var full := Ranking(Scores(s, query, score));
    full[..SliceLength(topK, |full|)]
  }

  /** `search(query_embedding, top_k)` without `faiss`: nothing for an empty
      store, otherwise the texts at the chosen positions, best first. */
  function Search<E>(s: Store<E>, query: E, score: (E, E) -> int, topK: int): (r: seq<string>)
    requires s.Valid()
    ensures |s.embeddings| == 0 ==> r == []
    ensures |r| == SliceLength(topK, |s.embeddings|)
    ensures forall i :: 0 <= i < |r| ==> r[i] in s.texts
  {
    if |s.embeddings| == 0 then []
    else
      var idx := TopPositions(s, query, score, topK);
      seq(|idx|, i requires 0 <= i < |idx| => s.texts[idx[i]])
  }

  /** `get_relevant_context(query, top_k)`: the search results joined with a
      separator line. */
  function RelevantContext<E>(s: Store<E>, embed: string -> E, score: (E, E) -> int,
                              query: string, topK: int): (r: string)
    requires s.Valid()
    ensures |s.embeddings| == 0 ==> r == ""
    ensures var found := Search(s, embed(query), score, topK);
            |found| > 0 ==> |found[0]| <= |r| && r[..|found[0]|] == found[0]
  {
    var found := Search(s, embed(query), score, topK);
    if |found| == 0 then "" else JoinEnds("\n---\n", found); Join("\n---\n", found)
  }

  /** The chosen positions are distinct, in non-increasing score order, and
      no position left out scores higher than any position chosen. */
  lemma {:induction false} TopPositionsAreBest<E>(s: Store<E>, query: E, score: (E, E) -> int, topK: int)
    ensures var idx := TopPositions(s, query, score, topK);
            var sc := Scores(s, query, score);
            && (forall a, b :: 0 <= a < b < |idx| ==> idx[a] != idx[b] && sc[idx[a]] >= sc[idx[b]])
            && (forall p, a :: 0 <= p < |sc| && p !in idx && 0 <= a < |idx| ==> sc[p] <= sc[idx[a]])
  {
    var sc := Scores(s, query, score);
    var full := Ranking(sc);
    var n := |s.embeddings|;
    RankedDistinct(sc, full);
    var idx := TopPositions(s, query, score, topK);
    assert idx == full[..SliceLength(topK, n)];
    forall p, a | 0 <= p < |sc| && p !in idx && 0 <= a < |idx|
      ensures sc[p] <= sc[idx[a]]
    {
      assert p in full;
      var b :| 0 <= b < |full| && full[b] == p;
      assert Ahead(sc, full[a], full[b]);
    }
  }

  /** Entry `i` of a search result is the text stored at the `i`-th chosen
      position. */
  lemma {:induction false} SearchTexts<E>(s: Store<E>, query: E, score: (E, E) -> int, topK: int)
    requires s.Valid() && |s.embeddings| > 0
    ensures var r := Search(s, query, score, topK);
            var idx := TopPositions(s, query, score, topK);
            |r| == |idx| && forall i :: 0 <= i < |r| ==> idx[i] < |s.texts| && r[i] == s.texts[idx[i]]
  {
  }

  /** Asking for at least as many results as are stored returns every stored
      position exactly once. */
  lemma {:induction false} SearchAllWhenTopKCoversStore<E>(s: Store<E>, query: E, score: (E, E) -> int, topK: int)
    requires topK >= |s.embeddings|
    ensures var idx := TopPositions(s, query, score, topK);
            && |idx| == |s.embeddings|
            && (forall p: nat :: p in idx <==> p < |s.embeddings|)
            && (forall a, b :: 0 <= a < b < |idx| ==> idx[a] != idx[b])
  {
    var sc := Scores(s, query, score);
    var full := Ranking(sc);
    RankedDistinct(sc, full);
    assert full[..|full|] == full;
  }

  /** With `top_k = 1` on a non-empty store, the context is a stored text
      whose embedding scores highest. */
  lemma {:induction false} SingleContextIsBest<E>(s: Store<E>, embed: string -> E, score: (E, E) -> int, query: string)
    requires s.Valid() && |s.embeddings| > 0
    ensures exists p :: 0 <= p < |s.texts| && RelevantContext(s, embed, score, query, 1) == s.texts[p]
              && forall q :: 0 <= q < |s.embeddings| ==> Scores(s, embed(query), score)[q] <= Scores(s, embed(query), score)[p]
  {
    var e := embed(query);
    var idx := TopPositions(s, e, score, 1);
    var sc := Scores(s, e, score);
    TopPositionsAreBest(s, e, score, 1);
    SearchTexts(s, e, score, 1);
    var p := idx[0];
    forall q | 0 <= q < |s.embeddings|
      ensures sc[q] <= sc[p]
    {
      if q != p {
        assert q !in idx;
      }
    }
    assert RelevantContext(s, embed, score, query, 1) == s.texts[p];
  }

  /** With the default `top_k` on a non-empty store, the search returns
      `min(3, n)` texts and the context begins with a text of the highest
      score. */
  lemma {:induction false} DefaultContextLeadsWithBest<E>(s: Store<E>, embed: string -> E, score: (E, E) -> int, query: string)
    requires s.Valid() && |s.embeddings| > 0
    ensures |Search(s, embed(query), score, DefaultTopK)| == Min(DefaultTopK, |s.texts|)
    ensures var ctx := RelevantContext(s, embed, score, query, DefaultTopK);
            exists p :: 0 <= p < |s.texts| && |s.texts[p]| <= |ctx| && ctx[..|s.texts[p]|] == s.texts[p]
              && forall q :: 0 <= q < |s.embeddings| ==> Scores(s, embed(query), score)[q] <= Scores(s, embed(query), score)[p]
  {
    var e := embed(query);
    var idx := TopPositions(s, e, score, DefaultTopK);
    var sc := Scores(s, e, score);
    TopPositionsAreBest(s, e, score, DefaultTopK);
    SearchTexts(s, e, score, DefaultTopK);
    var p := idx[0];
    forall q | 0 <= q < |s.embeddings|
      ensures sc[q] <= sc[p]
    {
      if q !in idx {
        assert sc[q] <= sc[idx[0]];
      } else {
        var k :| 0 <= k < |idx| && idx[k] == q;
        if k > 0 { assert sc[idx[0]] >= sc[idx[k]]; }
      }
    }
  }
}

=== FILE: wrappers.dfy ===
/** Failure-carrying values shared by the other modules: `Option` for Python's
    "value or None" and `Result` for "value or raised exception". */
module Wrappers {

  datatype Option<+T> = None | Some(value: T)

  datatype Result<+T, +E> = Success(value: T) | Failure(error: E)

  /** The smaller of two sizes. */
  function Min(a: nat, b: nat): (m: nat)
    ensures m <= a && m <= b && (m == a || m == b)
  {
    if a < b then a else b
  }

  /** Python's `len(a[:k])` for a list of length `n`: a negative stop counts
      from the end and the slice never extends past the list. */
  function SliceLength(k: int, n: nat): (m: nat)
    ensures m <= n
  {
    if k >= 0 then Min(k, n)
    else if n + k > 0 then n + k else 0
  }
}
